=== FILE: README.md ===
# Dropdown selection state machine

A Dafny model of the generic dropdown of the storefront front end
(`src/components/element/Dropdown.tsx`). Without its markup and styling,
the component is a small state machine owned by one component instance. Its
state is `{isOpen, selected, searchTerm, maxHeight}`. It reacts to five
events: the trigger click (`handleToggle`), a click on a list item
(`handleSelect`), a `mousedown` anywhere on the page (the outside-click
listener), a change of the `initialValue` prop, and typing in the search
field. It derives three views from its state: the filtered option list, the
trigger label and the width class.

Files:

- `text.dfy` (module `Text`): an ASCII `toLowerCase` and `includes`
  (contiguous substring containment), with a positional characterisation
  of containment.
- `subsequences.dfy` (module `Subsequences`): order-preserving
  subsequences.
- `options.dfy` (module `Options`): the `Option` record, the
  case-insensitive filter as a recursive function, its loop form, and the
  lemmas that pin it down.
- `dropdown.dfy` (module `Dropdown`): props, state, one pure transition per
  event, the derived views, and `Step`/`Run` over event sequences.
- `dropdown_laws.dfy` (module `DropdownLaws`): properties that relate
  several events.

Each handler is one atomic transition. `Select` and `ClickItem` also return
the list of options passed to `onSelect`, so "called exactly once with `o`"
becomes `emitted == [o]`. `maxHeight` is a number of pixels. The source
stores it as the string `"<n>px"`.

Two behaviours a reader might expect that the code does not have:

- The outside click does not clear `searchTerm` (Dropdown.tsx:54-55 only
  close the list and zero the height). A reopened list shows the same
  filtered items as before.
- The stored `maxHeight` of an opened list is `|options| * 180` with no
  cap. `Math.min` is given a single argument (Dropdown.tsx:70), so it
  returns that argument unchanged.

## Model

| member | source | states |
|---|---|---|
| `Text.ToLower` | src/components/element/Dropdown.tsx:86 | lowering keeps the length, maps each character on its own, and leaves no upper-case letter |
| `Text.ToLowerIdempotent` | src/components/element/Dropdown.tsx:86 | lowering an already lowered string changes nothing |
| `Text.Contains` | src/components/element/Dropdown.tsx:86 | the empty string is contained in every string, and a needle longer than the haystack is never contained |
| `Text.ContainsIffOccurs` | src/components/element/Dropdown.tsx:86 | `includes` holds exactly when the needle occurs as a contiguous run at some position, in both directions |
| `Text.ContainsLowered` | src/components/element/Dropdown.tsx:86 | an exact occurrence survives lowering both sides, so the case-insensitive test admits every exact match |
| `Text.FirstCharAbsent` | src/components/element/Dropdown.tsx:86 | a needle whose first character is absent from the haystack is not contained |
| `Options.Filter` | src/components/element/Dropdown.tsx:85-87 | the filtered list is an order-preserving subsequence of `options`, no longer than it, and holds an option exactly when `options` holds it and its lowered label contains the lowered term |
| `Options.FilterCounts` | src/components/element/Dropdown.tsx:85-87 | each matching option keeps its multiplicity, duplicates included, and every non-matching option is dropped |
| `Options.FilterUnique` | src/components/element/Dropdown.tsx:85-87 | any order-preserving subsequence that keeps exactly the matching options is the filtered list, so the filter is fully determined by that description |
| `Options.FilterAllMatching` | src/components/element/Dropdown.tsx:85-87 | when every option matches, the filter is the identity |
| `Options.EmptyTermShowsAll` | src/components/element/Dropdown.tsx:85-87 | an empty search term shows `options` unchanged |
| `Options.NoMatchShowsNothing` | src/components/element/Dropdown.tsx:85-87 | a term that no label contains yields the empty list |
| `Options.FilterAppend` | src/components/element/Dropdown.tsx:85-87 | filtering a concatenation is concatenating the filtered parts |
| `Options.FilterIdempotent` | src/components/element/Dropdown.tsx:85-87 | filtering a filtered list again with the same term changes nothing |
| `Options.FilterIgnoresTermCase` | src/components/element/Dropdown.tsx:86 | typing the term in any case gives the same list as typing it lowered |
| `Options.ExactMatchIsShown` | src/components/element/Dropdown.tsx:85-87 | an option whose label contains the term verbatim is always shown |
| `Options.FilterOptions` | src/components/element/Dropdown.tsx:85-87 | the front-to-back filtering loop computes the same list as the recursive filter |
| `Dropdown.WithDefaults` | src/components/element/Dropdown.tsx:22-33 | with only `options` supplied, the dropdown is enabled and not searchable. It has no initial value, the placeholder "Select an option" and the medium size |
| `Dropdown.Init` | src/components/element/Dropdown.tsx:34-39 | the mounted widget is closed with zero height and an empty search term. It holds `initialValue` as its selection and shows every option |
| `Dropdown.Toggle` | src/components/element/Dropdown.tsx:65-73 | disabled: no change. Enabled: `isOpen` flips, the height becomes 0 when it was open and `\|options\| * 180` (no cap) when it was closed. Selection and search term never change, and the height invariant is kept |
| `Dropdown.Select` | src/components/element/Dropdown.tsx:75-83 | disabled: no change and no `onSelect` call. Enabled: exactly one `onSelect(o)`, `o` becomes the selection, the list is closed with zero height and the search is cleared |
| `Dropdown.ClickOutside` | src/components/element/Dropdown.tsx:49-56 | a press inside changes nothing. A press outside closes the list and zeroes its height. Selection and search term are kept in both cases |
| `Dropdown.SyncInitialValue` | src/components/element/Dropdown.tsx:42-46 | a non-null value overwrites the selection and null changes nothing. No other field changes |
| `Dropdown.TypeSearch` | src/components/element/Dropdown.tsx:124-131 | in a searchable dropdown the search term becomes the typed text. Otherwise nothing changes, and no other field changes in either case |
| `Dropdown.Visible` | src/components/element/Dropdown.tsx:85-87 | the displayed items are the options whose lowered label contains the lowered search term. They keep the order of `options` and each one's multiplicity there, which by `FilterUnique` fixes the list exactly |
| `Dropdown.ClickItem` | src/components/element/Dropdown.tsx:134-142 | clicking a displayed item when enabled selects it, emits exactly that item, closes the list with zero height and clears the search. Anything emitted is one of `options` and matches the current term. A disabled widget or an index past the list changes nothing |
| `Dropdown.Label` | src/components/element/Dropdown.tsx:110 | the trigger shows the selected option's label, else the placeholder |
| `Dropdown.SizeClass` | src/components/element/Dropdown.tsx:89-90 | every size maps to one of the three width classes |
| `Dropdown.SizeOfClass` | src/components/element/Dropdown.tsx:89-90 | only the three width classes read back as a size |
| `Dropdown.Step` | src/components/element/Dropdown.tsx:42-83 | only an item click calls `onSelect`, only with one of `options`, and every event keeps the height in step with the open flag |
| `DropdownLaws.ToggleTwiceRestores` | src/components/element/Dropdown.tsx:65-73 | two trigger clicks restore the state exactly |
| `DropdownLaws.OpenHeightIsUncapped` | src/components/element/Dropdown.tsx:68-70 | opening a list with more than `n` options makes its stored `maxHeight` exceed `n` pixels, for every `n`: no cap is applied to `maxHeight` |
| `DropdownLaws.ReopenAfterSelectShowsAll` | src/components/element/Dropdown.tsx:75-87 | after a selection, reopening shows every option in the original order |
| `DropdownLaws.SelectSameTwice` | src/components/element/Dropdown.tsx:75-83 | selecting the same option again leaves the state as it was after the first selection |
| `DropdownLaws.ClickOutsideIdempotent` | src/components/element/Dropdown.tsx:49-56 | a second outside press changes nothing more |
| `DropdownLaws.ClickOutsideUndoesOpen` | src/components/element/Dropdown.tsx:49-73 | opening a closed list and then pressing outside returns to the state before opening |
| `DropdownLaws.ClickOutsideKeepsFilter` | src/components/element/Dropdown.tsx:49-56 | an outside press leaves the displayed items and the trigger label unchanged, so the search is not reset |
| `DropdownLaws.LabelAfterSelect` | src/components/element/Dropdown.tsx:110 | after an enabled selection of `o` the trigger reads `o`'s label |
| `DropdownLaws.DefaultLabelIsPlaceholder` | src/components/element/Dropdown.tsx:25 | with default props the freshly mounted trigger reads "Select an option" |
| `DropdownLaws.InitialValueOverridesPick` | src/components/element/Dropdown.tsx:42-46 | a non-null `initialValue` arriving after a user pick replaces it, and the trigger shows the caller's option |
| `DropdownLaws.SizeClassRoundTrip` | src/components/element/Dropdown.tsx:89-90 | reading a size's class back gives that size, so small, medium and large have distinct classes |
| `DropdownLaws.SizeOfClassRoundTrip` | src/components/element/Dropdown.tsx:89-90 | a class that reads back as a size is that size's class |
| `DropdownLaws.RunKeepsHeightAgreeing` | src/components/element/Dropdown.tsx:65-83 | over any sequence of events the height is 0 when closed and the full height when open |
| `DropdownLaws.RunEmitsListedOptions` | src/components/element/Dropdown.tsx:134-137 | over any sequence of events `onSelect` only receives options from `options` |
| `DropdownLaws.DisabledRunEmitsNothing` | src/components/element/Dropdown.tsx:75-83 | a disabled dropdown never calls `onSelect` |
| `DropdownLaws.DisabledRunStaysClosed` | src/components/element/Dropdown.tsx:65-73 | a closed disabled dropdown stays closed whatever happens |
| `DropdownLaws.UnsearchableRunShowsAll` | src/components/element/Dropdown.tsx:124-131 | without a search field the search term stays empty, so every option is always shown |
| `DropdownLaws.SelectionOrigin` | src/components/element/Dropdown.tsx:35-83 | the final selection is the starting one, an option passed to `onSelect`, or a value supplied through `initialValue` |
| `DropdownLaws.FilterExample` | src/components/element/Dropdown.tsx:85-87 | with "Red" and "Blue", the term "RE" leaves only "Red" and the term "z" leaves nothing |
| `DropdownLaws.ClickFirstItemExample` | src/components/element/Dropdown.tsx:134-137 | with "Red" and "Rose" and the term "r", the first displayed item is "Red", and clicking it selects and emits "Red" |

## Left out

- `src/components/element/CartTotals.tsx`: pure presentation. It has no state and forwards callbacks. Its only computation formats numbers as text.
- Rendering: markup, CSS classes other than the width class, the transition styles, the `style`, `className` and `labelClassName` props, and the chevron icon. These affect appearance only.
- Registering and removing the document `mousedown` listener, and the DOM `contains` test. An outside click is an event with an `inside` flag. The widget is assumed mounted, so the `dropdownRef.current` null check always passes.
- React scheduling: state batching, effect timing and stale closures. Each handler is one atomic transition. A change of `initialValue` is an explicit event, not a comparison of object identities.
- A click on a list item while the list is hidden. The hidden list ignores clicks, and that is CSS behaviour. `ClickItem` does not look at `isOpen`.
- Typing in the search field while the list is closed. The field then sits in the hidden container (Dropdown.tsx:116) and cannot be reached. `TypeSearch` does not look at `isOpen`, so the model allows more than the widget does.
- Props changing between events. `Run` holds every prop except `initialValue` fixed. A change of `initialValue` arrives only as an `InitialValueProp` event, and `p.initialValue` feeds only `Init`.
- Select: assumes the parent's `onSelect` returns normally. The source calls it after queuing the new selection and before closing the list and clearing the search (Dropdown.tsx:77-81). A callback that throws would leave the list open with its search, and the model always closes and clears.
- Text.ContainsLowered: holds only for A-Z lowering. JavaScript's `toLowerCase` applies the Greek final-sigma rule: "ΟΔΟΣ" contains "Σ", but "οδος" does not contain "σ".
- Options.ExactMatchIsShown: holds only for A-Z lowering, for the same reason. An option labelled "ΟΔΟΣ" is hidden by the search term "Σ" that it contains verbatim.
- Full Unicode case mapping of `toLowerCase`. Only A-Z are lowered.
- Object-identity equality of options. `Option` is compared by value.
- `size` values outside `'small' | 'medium' | 'large'`. The TypeScript type rules them out, and every such value falls to the same `w-48` branch as `medium`.
- The `max-h-60 overflow-auto` classes of the list element (Dropdown.tsx:133). They limit the rendered list to 15rem whatever `maxHeight` says. The model tracks only the stored `maxHeight`.
- The `"<n>px"` string form of `maxHeight`. The model keeps the pixel count.

=== FILE: dropdown.dfy ===
/** The selection state machine of the generic dropdown
    (src/components/element/Dropdown.tsx). Every handler is one atomic,
    pure transition `State -> State`; the selection handler also reports the
    `onSelect` calls it makes. */
module Dropdown {
  import opened Options
  import opened Subsequences

  /** `Option | null`. */
  datatype Nullable<T> = Null | Some(item: T)

  /** The `size` prop. */
  datatype Size = Small | Medium | Large

  const DefaultPlaceholder: string := "Select an option"
  const DefaultSize: Size := Medium

  /** Pixels of list height reserved per option when the list opens. */
  const OptionHeight: nat := 180

  /** The props that the state machine reads. */
  datatype Props = Props(
    options: seq<Option>,
    placeholder: string,
    size: Size,
    disabled: bool,
    initialValue: Nullable<Option>,
    isSearchable: bool)

  /** Props as the component sees them when the caller passes only `options`. */
  function WithDefaults(options: seq<Option>): (p: Props)
    ensures p.options == options && p.initialValue == Null
    ensures p.placeholder == DefaultPlaceholder && p.size == Medium
    ensures !p.disabled && !p.isSearchable
  {
    Props(options, DefaultPlaceholder, DefaultSize, false, Null, false)
  }

  /** The component's local state. `maxHeight` is the list's CSS height in
      pixels (the source keeps it as the string "<n>px"). */
  datatype State = State(
    isOpen: bool,
    selected: Nullable<Option>,
    searchTerm: string,
    maxHeight: nat)

  /** A handler's result: the next state and the options passed to
      `onSelect`, in call order. */
  datatype Outcome = Outcome(state: State, emitted: seq<Option>)

  /** Height of the opened list: one `OptionHeight` per option. The source
      passes a single argument to `Math.min`, so no cap is applied. */
  function ExpandedHeight(p: Props): nat {
    |p.options| * OptionHeight
  }

  /** The stored height agrees with the open flag: zero when closed, the
      full expanded height when open. */
  predicate HeightAgrees(p: Props, s: State) {
    s.maxHeight == if s.isOpen then ExpandedHeight(p) else 0
  }

  /** The state after mounting: closed, empty search, selection taken from
      `initialValue`. */
  function Init(p: Props): (s: State)
    ensures HeightAgrees(p, s) && !s.isOpen
    ensures s.selected == p.initialValue
    ensures s.searchTerm == [] && s.maxHeight == 0
    ensures Filter(p.options, s.searchTerm) == p.options
  {
    EmptyTermShowsAll(p.options);
    State(false, p.initialValue, "", 0)
  }

  /** `handleToggle`: when enabled, flip `isOpen` and set the height from
      the flag as it was before the flip. */
  function Toggle(p: Props, s: State): (s': State)
    ensures p.disabled ==> s' == s
    ensures !p.disabled ==> s'.isOpen != s.isOpen
    ensures !p.disabled ==> s'.maxHeight == if s.isOpen then 0 else |p.options| * OptionHeight
    ensures s'.selected == s.selected && s'.searchTerm == s.searchTerm
    ensures HeightAgrees(p, s) ==> HeightAgrees(p, s')
  {
    if p.disabled then s
    else s.(isOpen := !s.isOpen, maxHeight := if s.isOpen then 0 else ExpandedHeight(p))
  }

  /** `handleSelect(o)`: when enabled, select `o`, call `onSelect(o)` once,
      close the list and clear the search; when disabled, do nothing and
      call nothing. */
  function Select(p: Props, s: State, o: Option): (r: Outcome)
    ensures p.disabled ==> r.state == s && r.emitted == []
    ensures !p.disabled ==> r.emitted == [o] && r.state.selected == Some(o)
    ensures !p.disabled ==> !r.state.isOpen && r.state.searchTerm == [] && r.state.maxHeight == 0
    ensures HeightAgrees(p, s) ==> HeightAgrees(p, r.state)
  {
    if p.disabled then Outcome(s, [])
    else Outcome(State(false, Some(o), "", 0), [o])
  }

  /** The `mousedown` listener. A press inside the widget does nothing; a
      press outside closes the list and zeroes its height, keeping the
      selection and the search term. It is not gated by `disabled`. */
  function ClickOutside(s: State, inside: bool): (s': State)
    ensures inside ==> s' == s
    ensures !inside ==> !s'.isOpen && s'.maxHeight == 0
    ensures s'.selected == s.selected && s'.searchTerm == s.searchTerm
  {
    if inside then s else s.(isOpen := false, maxHeight := 0)
  }

  /** The effect on `initialValue`: a non-null value overwrites the
      selection, whatever the user picked before; null changes nothing. */
  function SyncInitialValue(s: State, v: Nullable<Option>): (s': State)
    ensures v.Some? ==> s'.selected == v
    ensures v.Null? ==> s' == s
    ensures s'.isOpen == s.isOpen && s'.searchTerm == s.searchTerm && s'.maxHeight == s.maxHeight
  {
    if v.Some? then s.(selected := v) else s
  }

  /** Typing in the search field. The field is rendered only for a
      searchable dropdown, so otherwise the term cannot change. */
  function TypeSearch(p: Props, s: State, term: string): (s': State)
    ensures p.isSearchable ==> s'.searchTerm == term
    ensures !p.isSearchable ==> s' == s
    ensures s'.isOpen == s.isOpen && s'.selected == s.selected && s'.maxHeight == s.maxHeight
  {
    if p.isSearchable then s.(searchTerm := term) else s
  }

  /** `filteredOptions`: the list items on display, in the order of
      `options` and with each matching option as often as it appears there.
      By `FilterUnique` these two facts determine the list completely. */
  function Visible(p: Props, s: State): (r: seq<Option>)
    ensures forall o :: o in r <==> o in p.options && Matches(o, s.searchTerm)
    ensures IsSubsequence(r, p.options)
    ensures KeepsExactlyMatching(r, p.options, s.searchTerm)
  {
    FilterCounts(p.options, s.searchTerm);
    Filter(p.options, s.searchTerm)
  }

  /** A click on the `index`-th displayed item selects that item. An index
      past the end of the displayed list names no item and changes nothing. */
  function ClickItem(p: Props, s: State, index: nat): (r: Outcome)
    ensures index < |Visible(p, s)| && !p.disabled ==> r.emitted == [Visible(p, s)[index]]
    ensures index < |Visible(p, s)| && !p.disabled ==>
      && r.state.selected == Some(Visible(p, s)[index])
      && !r.state.isOpen && r.state.searchTerm == [] && r.state.maxHeight == 0
    ensures forall o :: o in r.emitted ==> o in p.options && Matches(o, s.searchTerm)
    ensures p.disabled || index >= |Visible(p, s)| ==> r == Outcome(s, [])
  {
    var items := Visible(p, s);
    if index < |items| then Select(p, s, items[index]) else Outcome(s, [])
  }

  /** The text on the trigger button: the selected option's label, else the
      placeholder. */
  function Label(p: Props, s: State): (l: string)
    ensures s.selected.Some? ==> l == s.selected.item.caption
    ensures s.selected.Null? ==> l == p.placeholder
  {
    match s.selected
    case Some(o) => o.caption
    case Null => p.placeholder
  }

  /** `sizeClass`: the width class for a size. */
  function SizeClass(size: Size): (c: string)
    ensures c in {"w-32", "w-48", "w-64"}
  {
    match size
    case Small => "w-32"
    case Large => "w-64"
    case Medium => "w-48"
  }

  /** Reads a width class back as a size. */
  function SizeOfClass(c: string): (r: Nullable<Size>)
    ensures r.Some? ==> c in {"w-32", "w-48", "w-64"}
  {
    if c == "w-32" then Some(Small)
    else if c == "w-64" then Some(Large)
    else if c == "w-48" then Some(Medium)
    else Null
  }

  /** The events that drive the widget. */
  datatype Event =
    | ToggleClick
    | ItemClick(index: nat)
    | MouseDown(inside: bool)
    | InitialValueProp(v: Nullable<Option>)
    | SearchInput(term: string)

  /** One event, handled atomically. */
  function Step(p: Props, s: State, e: Event): (r: Outcome)
    ensures e.ItemClick? || r.emitted == []
    ensures forall o :: o in r.emitted ==> o in p.options
    ensures HeightAgrees(p, s) ==> HeightAgrees(p, r.state)
  {
    match e
    case ToggleClick => Outcome(Toggle(p, s), [])
    case ItemClick(i) => ClickItem(p, s, i)
    case MouseDown(inside) => Outcome(ClickOutside(s, inside), [])
    case InitialValueProp(v) => Outcome(SyncInitialValue(s, v), [])
    case SearchInput(t) => Outcome(TypeSearch(p, s, t), [])
  }

  /** A sequence of events handled in order; the `onSelect` calls of all
      steps are collected in order. Every prop except `initialValue` is held
      fixed. A change of `initialValue` arrives only as an `InitialValueProp`
      event; `p.initialValue` feeds only `Init`. */
  function Run(p: Props, s: State, events: seq<Event>): (r: Outcome)
    decreases |events|
  {
    if events == [] then Outcome(s, [])
    else
      var first := Step(p, s, events[0]);
      var rest := Run(p, first.state, events[1..]);
      Outcome(rest.state, first.emitted + rest.emitted)
  }
}

=== FILE: dropdown_laws.dfy ===
/** Properties of the dropdown that relate several events: the behaviour a
    user of the widget relies on across clicks. */
module DropdownLaws {
  import opened Text
  import opened Options
  import opened Dropdown

  /** Opening and closing again (or closing and reopening) restores the
      state exactly, provided the height agrees with the open flag. */
  lemma ToggleTwiceRestores(p: Props, s: State)
    requires HeightAgrees(p, s)
    ensures Toggle(p, Toggle(p, s)) == s
  {
  }

  /** The stored `maxHeight` of an opened list has no upper bound: whatever
      bound is chosen, a list with more options than that opens with a
      `maxHeight` above it. */
  lemma OpenHeightIsUncapped(p: Props, s: State, bound: nat)
    requires !p.disabled && !s.isOpen
    requires |p.options| > bound
    ensures Toggle(p, s).isOpen
    ensures Toggle(p, s).maxHeight > bound
  {
  }

  /** After a selection the search is cleared, so reopening the list shows
      every option again, in the original order. */
  lemma ReopenAfterSelectShowsAll(p: Props, s: State, o: Option)
    requires !p.disabled
    ensures Toggle(p, Select(p, s, o).state).isOpen
    ensures Visible(p, Toggle(p, Select(p, s, o).state)) == p.options
  {
    EmptyTermShowsAll(p.options);
  }

  /** Selecting the same option twice ends in the same state as once. */
  lemma SelectSameTwice(p: Props, s: State, o: Option)
    ensures Select(p, Select(p, s, o).state, o).state == Select(p, s, o).state
  {
  }

  /** A second press outside the widget changes nothing more. */
  lemma ClickOutsideIdempotent(s: State, inside: bool)
    ensures ClickOutside(ClickOutside(s, inside), inside) == ClickOutside(s, inside)
  {
  }

  /** Opening a closed list and pressing outside returns to the state
      before the opening. */
  lemma ClickOutsideUndoesOpen(p: Props, s: State)
    requires !s.isOpen && HeightAgrees(p, s)
    ensures ClickOutside(Toggle(p, s), false) == s
  {
  }

  /** A press outside keeps the search term, so reopening shows the same
      filtered items as before: the dismissal does not reset the search. */
  lemma ClickOutsideKeepsFilter(p: Props, s: State, inside: bool)
    ensures Visible(p, ClickOutside(s, inside)) == Visible(p, s)
    ensures Label(p, ClickOutside(s, inside)) == Label(p, s)
  {
  }

  /** The trigger shows the picked option's label after a selection. */
  lemma LabelAfterSelect(p: Props, s: State, o: Option)
    requires !p.disabled
    ensures Label(p, Select(p, s, o).state) == o.caption
  {
  }

  /** With default props and nothing selected, the trigger reads
      "Select an option". */
  lemma DefaultLabelIsPlaceholder(options: seq<Option>)
    ensures Label(WithDefaults(options), Init(WithDefaults(options))) == "Select an option"
  {
  }

  /** A non-null `initialValue` set after the user picked something wins:
      the trigger then shows the caller's option, not the user's. */
  lemma InitialValueOverridesPick(p: Props, s: State, o: Option, v: Option)
    requires !p.disabled
    ensures SyncInitialValue(Select(p, s, o).state, Some(v)).selected == Some(v)
    ensures Label(p, SyncInitialValue(Select(p, s, o).state, Some(v))) == v.caption
  {
  }

  /** Each size has its own width class, and the class reads back as the
      size: `SizeOfClass` inverts `SizeClass`. */
  lemma SizeClassRoundTrip(size: Size)
    ensures SizeOfClass(SizeClass(size)) == Some(size)
  {
  }

  /** Every class that reads back as a size is that size's class. */
  lemma SizeOfClassRoundTrip(c: string, size: Size)
    requires SizeOfClass(c) == Some(size)
    ensures SizeClass(size) == c
  {
  }

  /** The height invariant holds in every state reachable from mounting. */
  lemma {:induction false} RunKeepsHeightAgreeing(p: Props, s: State, events: seq<Event>)
    requires HeightAgrees(p, s)
    ensures HeightAgrees(p, Run(p, s, events).state)
    decreases |events|
  {
    if events != [] {
      RunKeepsHeightAgreeing(p, Step(p, s, events[0]).state, events[1..]);
    }
  }

  /** `onSelect` is only ever called with one of the caller's options. */
  lemma {:induction false} RunEmitsListedOptions(p: Props, s: State, events: seq<Event>)
    ensures forall o :: o in Run(p, s, events).emitted ==> o in p.options
    decreases |events|
  {
    if events != [] {
      RunEmitsListedOptions(p, Step(p, s, events[0]).state, events[1..]);
    }
  }

  /** A disabled dropdown never calls `onSelect`, whatever happens. */
  lemma {:induction false} DisabledRunEmitsNothing(p: Props, s: State, events: seq<Event>)
    requires p.disabled
    ensures Run(p, s, events).emitted == []
    decreases |events|
  {
    if events != [] {
      DisabledRunEmitsNothing(p, Step(p, s, events[0]).state, events[1..]);
    }
  }

  /** A disabled dropdown that is closed stays closed. */
  lemma {:induction false} DisabledRunStaysClosed(p: Props, s: State, events: seq<Event>)
    requires p.disabled && !s.isOpen
    ensures !Run(p, s, events).state.isOpen
    decreases |events|
  {
    if events != [] {
      DisabledRunStaysClosed(p, Step(p, s, events[0]).state, events[1..]);
    }
  }

  /** Without a search field the search term stays empty, so the list always
      shows every option. */
  lemma {:induction false} UnsearchableRunShowsAll(p: Props, s: State, events: seq<Event>)
    requires !p.isSearchable && s.searchTerm == []
    ensures Run(p, s, events).state.searchTerm == []
    ensures Visible(p, Run(p, s, events).state) == p.options
    decreases |events|
  {
    EmptyTermShowsAll(p.options);
    if events != [] {
      UnsearchableRunShowsAll(p, Step(p, s, events[0]).state, events[1..]);
    }
  }

  /** The selection only ever comes from where the source lets it: it is
      the starting selection, an option passed to `onSelect`, or a value the
      caller supplied through `initialValue`. */
  lemma {:induction false} SelectionOrigin(p: Props, s: State, events: seq<Event>)
    ensures var r := Run(p, s, events);
      || r.state.selected == s.selected
      || (r.state.selected.Some? && r.state.selected.item in r.emitted)
      || InitialValueProp(r.state.selected) in events
    decreases |events|
  {
    if events != [] {
      var first := Step(p, s, events[0]);
      SelectionOrigin(p, first.state, events[1..]);
      assert events == [events[0]] + events[1..];
    }
  }

  /** The filtering example: with "Red" and "Blue", typing "RE" leaves only
      "Red", and typing "z" leaves nothing. */
  lemma FilterExample()
    ensures Filter([Option("Red", "r"), Option("Blue", "b")], "RE") == [Option("Red", "r")]
    ensures Filter([Option("Red", "r"), Option("Blue", "b")], "z") == []
  {
    var red := Option("Red", "r");
    var blue := Option("Blue", "b");
    LowerExamples();
    ContainsExamples();
    assert Matches(red, "RE") && !Matches(blue, "RE");
    assert !Matches(red, "z") && !Matches(blue, "z");
    assert [red, blue][1..] == [blue];
  }

  lemma LowerExamples()
    ensures ToLower("RE") == "re" && ToLower("Red") == "red"
    ensures ToLower("Blue") == "blue" && ToLower("z") == "z"
  {
    assert LowerChar('R') == 'r' && LowerChar('E') == 'e' && LowerChar('B') == 'b';
    assert LowerChar('e') == 'e' && LowerChar('d') == 'd' && LowerChar('l') == 'l';
    assert LowerChar('u') == 'u' && LowerChar('z') == 'z';
    assert ToLower("RE")[0] == 'r';
  }

  lemma ContainsExamples()
    ensures Contains("red", "re")
    ensures !Contains("blue", "re") && !Contains("red", "z") && !Contains("blue", "z")
  {
    assert IsPrefix("re", "red");
    assert "red"[..2] == "re";
    assert forall i :: 0 <= i < |"blue"| ==> "blue"[i] != 'r' && "blue"[i] != 'z';
    assert forall i :: 0 <= i < |"red"| ==> "red"[i] != 'z';
    FirstCharAbsent("blue", "re");
    FirstCharAbsent("blue", "z");
    FirstCharAbsent("red", "z");
  }

  /** Items are displayed in the order of `options`: with "Red" and "Rose"
      and the term "r", the first item is "Red", and clicking it selects and
      emits "Red". */
  lemma ClickFirstItemExample(p: Props, s: State)
    requires p.options == [Option("Red", "r"), Option("Rose", "o")]
    requires !p.disabled && s.searchTerm == "r"
    ensures ClickItem(p, s, 0).emitted == [Option("Red", "r")]
    ensures ClickItem(p, s, 0).state.selected == Some(Option("Red", "r"))
  {
    var red := Option("Red", "r");
    var rose := Option("Rose", "o");
    assert LowerChar('R') == 'r' && LowerChar('e') == 'e' && LowerChar('d') == 'd';
    assert LowerChar('o') == 'o' && LowerChar('s') == 's' && LowerChar('r') == 'r';
    assert ToLower("r") == "r";
    assert ToLower("Red")[..1] == "r" && ToLower("Rose")[..1] == "r";
    assert IsPrefix("r", ToLower("Red")) && IsPrefix("r", ToLower("Rose"));
    assert Matches(red, "r") && Matches(rose, "r");
    FilterAllMatching(p.options, "r");
  }
}

=== FILE: options.dfy ===
/** The dropdown's options and the search filter over them
    (src/components/element/Dropdown.tsx, the `Option` interface and
    `filteredOptions`). */
module Options {
  import opened Text
  import opened Subsequences

  /** One selectable choice. `caption` is the source's `label` field (`label` is a Dafny keyword).
      Compared by value, not by object identity. */
  datatype Option = Option(caption: string, value: string)

  /** The filter's test: the lowered label contains the lowered search term. */
  predicate Matches(o: Option, term: string) {
    Contains(ToLower(o.caption), ToLower(term))
  }

  /** `options.filter(o => o.label.toLowerCase().includes(term.toLowerCase()))`:
      the matching options, in their original order. */
  function Filter(options: seq<Option>, term: string): (r: seq<Option>)
    ensures |r| <= |options|
    ensures forall o :: o in r <==> o in options && Matches(o, term)
    ensures IsSubsequence(r, options)
    decreases |options|
  {
    if options == [] then []
    else if Matches(options[0], term) then [options[0]] + Filter(options[1..], term)
    else Filter(options[1..], term)
  }

  /** `r` holds every matching option exactly as often as `options` does,
      and no other option. */
  ghost predicate KeepsExactlyMatching(r: seq<Option>, options: seq<Option>, term: string) {
    forall o {:trigger multiset(r)[o]} :: multiset(r)[o] == if Matches(o, term) then multiset(options)[o] else 0
  }

  /** The filter keeps each matching option with its multiplicity (duplicates
      included) and drops every other one. */
  lemma {:induction false} FilterCounts(options: seq<Option>, term: string)
    ensures KeepsExactlyMatching(Filter(options, term), options, term)
    decreases |options|
  {
    if options != [] {
      FilterCounts(options[1..], term);
      assert options == [options[0]] + options[1..];
      if Matches(options[0], term) {
        assert Filter(options, term) == [options[0]] + Filter(options[1..], term);
      }
    }
  }

  /** The filter is the only order-preserving subsequence of `options` that
      keeps exactly the matching options: it is fully determined by its
      specification. */
  lemma {:induction false} FilterUnique(options: seq<Option>, term: string, r: seq<Option>)
    requires IsSubsequence(r, options)
    requires KeepsExactlyMatching(r, options, term)
    ensures r == Filter(options, term)
    decreases |options|
  {
    if options == [] {
    } else {
      var x := options[0];
      var rest := options[1..];
      assert options == [x] + rest;
      if Matches(x, term) {
        assert multiset(r)[x] == multiset(options)[x] > 0;
        assert r != [];
        if r[0] != x {
          SubsequenceCounts(r, rest, x);
        }
        assert r == [x] + r[1..];
        forall o
          ensures multiset(r[1..])[o] == if Matches(o, term) then multiset(rest)[o] else 0
        {
          assert multiset(r)[o] == multiset(r[1..])[o] + (if o == x then 1 else 0);
          assert multiset(options)[o] == multiset(rest)[o] + (if o == x then 1 else 0);
        }
        FilterUnique(rest, term, r[1..]);
      } else {
        assert multiset(r)[x] == 0;
        if r != [] {
          assert r[0] in multiset(r);
        }
        assert IsSubsequence(r, rest);
        forall o
          ensures multiset(r)[o] == if Matches(o, term) then multiset(rest)[o] else 0
        {
          if Matches(o, term) {
            assert o != x;
          }
        }
        FilterUnique(rest, term, r);
      }
    }
  }

  /** When every option matches, the filter returns the list unchanged. */
  lemma {:induction false} FilterAllMatching(options: seq<Option>, term: string)
    requires forall o :: o in options ==> Matches(o, term)
    ensures Filter(options, term) == options
    decreases |options|
  {
    if options != [] {
      FilterAllMatching(options[1..], term);
    }
  }

  /** An empty search term shows every option, in order. */
  lemma EmptyTermShowsAll(options: seq<Option>)
    ensures Filter(options, "") == options
  {
    FilterAllMatching(options, "");
  }

  /** A search term that no label contains yields the empty list. */
  lemma NoMatchShowsNothing(options: seq<Option>, term: string)
    requires forall o :: o in options ==> !Matches(o, term)
    ensures Filter(options, term) == []
  {
  }

  /** The filter distributes over concatenation of option lists. */
  lemma {:induction false} FilterAppend(a: seq<Option>, b: seq<Option>, term: string)
    ensures Filter(a + b, term) == Filter(a, term) + Filter(b, term)
    decreases |a|
  {
    if a != [] {
      assert (a + b)[1..] == a[1..] + b;
      FilterAppend(a[1..], b, term);
    } else {
      assert a + b == b;
    }
  }

  /** Filtering an already filtered list with the same term changes nothing. */
  lemma FilterIdempotent(options: seq<Option>, term: string)
    ensures Filter(Filter(options, term), term) == Filter(options, term)
  {
    FilterAllMatching(Filter(options, term), term);
  }

  /** The case of the search term does not matter: only its lowered form is
      used. */
  lemma FilterIgnoresTermCase(options: seq<Option>, term: string)
    ensures Filter(options, ToLower(term)) == Filter(options, term)
  {
    ToLowerIdempotent(term);
    FilterSameLoweredTerm(options, term, ToLower(term));
  }

  lemma {:induction false} FilterSameLoweredTerm(options: seq<Option>, t1: string, t2: string)
    requires ToLower(t1) == ToLower(t2)
    ensures Filter(options, t1) == Filter(options, t2)
    decreases |options|
  {
    if options != [] {
      FilterSameLoweredTerm(options[1..], t1, t2);
    }
  }

  /** An option whose label contains the term verbatim is always shown:
      the case-insensitive search admits every exact match. */
  lemma ExactMatchIsShown(options: seq<Option>, term: string, o: Option)
    requires o in options
    requires Contains(o.caption, term)
    ensures o in Filter(options, term)
  {
    ContainsLowered(o.caption, term);
  }

  /** `Array.prototype.filter` as the loop it is: visit the options front to
      back and keep the matching ones. */
  method FilterOptions(options: seq<Option>, term: string) returns (r: seq<Option>)
    ensures r == Filter(options, term)
  {
    r := [];
    var i := 0;
    while i < |options|
      invariant 0 <= i <= |options|
      invariant r == Filter(options[..i], term)
    {
      assert options[..i + 1] == options[..i] + [options[i]];
      FilterAppend(options[..i], [options[i]], term);
      assert [options[i]][1..] == [];
      assert Filter([options[i]], term) == if Matches(options[i], term) then [options[i]] else [];
      if Matches(options[i], term) {
        r := r + [options[i]];
      }
      i := i + 1;
    }
    assert options[..i] == options;
  }
}

=== FILE: subsequences.dfy ===
/** Order-preserving subsequences of a sequence. */
module Subsequences {

  /** `xs` can be obtained from `ys` by deleting elements, keeping the
      order of the rest (decided greedily from the front). */
  predicate IsSubsequence<T(==)>(xs: seq<T>, ys: seq<T>)
    decreases |ys|
  {
    if xs == [] then true
    else if ys == [] then false
    else if xs[0] == ys[0] then IsSubsequence(xs[1..], ys[1..])
    else IsSubsequence(xs, ys[1..])
  }

  /** A subsequence holds each value at most as often as the sequence does. */
  lemma {:induction false} SubsequenceCounts<T>(xs: seq<T>, ys: seq<T>, x: T)
    requires IsSubsequence(xs, ys)
    ensures multiset(xs)[x] <= multiset(ys)[x]
    decreases |ys|
  {
    if xs == [] {
    } else {
      assert ys == [ys[0]] + ys[1..];
      if xs[0] == ys[0] {
        assert xs == [xs[0]] + xs[1..];
        SubsequenceCounts(xs[1..], ys[1..], x);
      } else {
        SubsequenceCounts(xs, ys[1..], x);
      }
    }
  }
}

=== FILE: text.dfy ===
/** Strings as the dropdown's search uses them: an ASCII-only `toLowerCase`
    and the contiguous-substring test of `includes`. */
module Text {

  predicate IsUpper(c: char) {
    'A' <= c <= 'Z'
  }

  /** Lowers one character: A-Z map to a-z, every other character is kept. */
  function LowerChar(c: char): (d: char)
    ensures !IsUpper(d)
    ensures IsUpper(c) <==> d != c
    ensures IsUpper(c) ==> d as int - c as int == 'a' as int - 'A' as int
  {
    if IsUpper(c) then (c as int + ('a' as int - 'A' as int)) as char else c
  }

  /** `toLowerCase`, restricted to the ASCII letters. */
  function ToLower(s: string): (t: string)
    ensures |t| == |s|
    ensures forall i :: 0 <= i < |s| ==> t[i] == LowerChar(s[i])
    ensures forall i :: 0 <= i < |t| ==> !IsUpper(t[i])
  {
    if s == [] then [] else [LowerChar(s[0])] + ToLower(s[1..])
  }

  /** Lowering a string that has no upper-case letter changes nothing. */
  lemma LowerOfLowerIsIdentity(s: string)
    requires forall i :: 0 <= i < |s| ==> !IsUpper(s[i])
    ensures ToLower(s) == s
  {
    assert forall i :: 0 <= i < |s| ==> ToLower(s)[i] == s[i];
  }

  /** Lowering twice is lowering once. */
  lemma ToLowerIdempotent(s: string)
    ensures ToLower(ToLower(s)) == ToLower(s)
  {
    LowerOfLowerIsIdentity(ToLower(s));
  }

  /** Lowering commutes with taking a slice. */
  lemma ToLowerSlice(s: string, i: int, j: int)
    requires 0 <= i <= j <= |s|
    ensures ToLower(s)[i..j] == ToLower(s[i..j])
  {
    assert forall k :: 0 <= k < j - i ==> ToLower(s)[i..j][k] == ToLower(s[i..j])[k];
  }

  predicate IsPrefix(p: string, s: string) {
    |p| <= |s| && s[..|p|] == p
  }

  /** `hay.includes(needle)`: `needle` occurs in `hay` as one contiguous run.
      The empty string occurs in every string. */
  function Contains(hay: string, needle: string): (r: bool)
    ensures needle == [] ==> r
    ensures |needle| > |hay| ==> !r
    decreases |hay|
  {
    IsPrefix(needle, hay) || (|hay| > 0 && Contains(hay[1..], needle))
  }

  /** `needle` occurs in `hay` starting at position `i`. */
  ghost predicate OccursAt(hay: string, needle: string, i: int) {
    0 <= i && i + |needle| <= |hay| && hay[i..i + |needle|] == needle
  }

  /** A contained needle occurs at some position of `hay`. */
  lemma {:induction false} OccursWhereContained(hay: string, needle: string) returns (i: int)
    requires Contains(hay, needle)
    ensures OccursAt(hay, needle, i)
    decreases |hay|
  {
    if IsPrefix(needle, hay) {
      i := 0;
    } else {
      var j := OccursWhereContained(hay[1..], needle);
      assert hay[1..][j..j + |needle|] == hay[j + 1..j + 1 + |needle|];
      i := j + 1;
    }
  }

  /** A needle that occurs at some position is contained. */
  lemma {:induction false} ContainedWhereOccurs(hay: string, needle: string, i: int)
    requires OccursAt(hay, needle, i)
    ensures Contains(hay, needle)
    decreases |hay|
  {
    if i == 0 {
      assert IsPrefix(needle, hay);
    } else {
      assert hay[1..][i - 1..i - 1 + |needle|] == hay[i..i + |needle|];
      ContainedWhereOccurs(hay[1..], needle, i - 1);
    }
  }

  /** `Contains` agrees with the positional definition of substring
      containment, in both directions. */
  lemma ContainsIffOccurs(hay: string, needle: string)
    ensures Contains(hay, needle) <==> exists i :: OccursAt(hay, needle, i)
  {
    if Contains(hay, needle) {
      var i := OccursWhereContained(hay, needle);
    }
    if exists i :: OccursAt(hay, needle, i) {
      var i :| OccursAt(hay, needle, i);
      ContainedWhereOccurs(hay, needle, i);
    }
  }

  /** An exact occurrence is also an occurrence once both sides are lowered:
      the case-insensitive match only ever admits more. */
  lemma ContainsLowered(hay: string, needle: string)
    requires Contains(hay, needle)
    ensures Contains(ToLower(hay), ToLower(needle))
  {
    var i := OccursWhereContained(hay, needle);
    ToLowerSlice(hay, i, i + |needle|);
    assert ToLower(hay)[i..i + |needle|] == ToLower(needle);
    ContainedWhereOccurs(ToLower(hay), ToLower(needle), i);
  }

  /** A needle whose first character appears nowhere in `hay` is not
      contained in it. */
  lemma {:induction false} FirstCharAbsent(hay: string, needle: string)
    requires needle != []
    requires forall i :: 0 <= i < |hay| ==> hay[i] != needle[0]
    ensures !Contains(hay, needle)
    decreases |hay|
  {
    if hay != [] {
      if |needle| <= |hay| {
        assert hay[..|needle|][0] == hay[0];
      }
      FirstCharAbsent(hay[1..], needle);
    }
  }
}
